=== FILE: README.md ===
# vsweep: the vector sweep and its result, in Dafny

This project models the iteration and recording core of the `vsweep` library.
A sweep hands out x values one step at a time. The consumer writes the
measured y onto each step. The sweep folds every finished `(x, y)` pair into a
result of two parallel axes.

Three modules:

- `Wrappers` (wrappers.dfy): `Option`, standing for Python's `None`, and
  `Result`, a value or a raised error.
- `Base` (base.dfy): `SweepStep` and `SweepResult` from vsweep/base.py. The
  result's two ways of construction (from two iterables, or from a scalar
  pair) are the two functions `FromSeqs` and `FromPair`. `+` is `Add`, or
  `AddPair` when the right operand is a scalar pair.
- `Vector` (vector.py model, vector.dfy): `VectorSweep` as an immutable record
  of the Python object's fields. `__iter__` is `Iter` (its successful state is
  `Begin`), `__next__` is `Next` and `__len__` is `Len`. `Next` returns an `Outcome`: a yielded step, the end
  of the iteration, or a raised error, each with the sweep's new fields. The
  consumer writing to the step it holds is `SetY` / `SetX`, because in Python
  the sweep and the consumer share that step object. `Drive` is a `for step in
  sweep` loop that writes a given y on each step.

`__iter__` lines its values up with `chain(*repeat(vector, npasses))`. The model
keeps that mechanism: `ChainRepeat` chains repetitions of one `Source`
object (`PassSource`). A list is iterated afresh on every repetition. An
iterator object is shared by all repetitions and delivers its values only
once. For a round trip the repeated object is one `chain` iterator over the
vector and its reverse. So, as the code is written, only the first pass
produces values. `BuildSequence` states the round-trip closed form,
`vector + reverse(vector)` exactly once, and `BuildSequenceCycles` the other
one, the vector cycled `npasses` times. The turnaround value appears twice in
a row. `__len__` still plans `2 * len(vector) * npasses` steps.
`LenVersusSequence` proves two things:
- Without a round trip and with `npasses >= 0`, the plan equals the emitted count.
- With a round trip and `npasses >= 1`, they agree exactly when there is one
  pass or the vector is empty.
A negative pass count over a non-empty vector plans a negative number of steps; any negative pass count emits none. The
name `npasses` suggests each pass repeats the round trip; the code does not,
and this model follows the code.

The result lags one step behind: the `(k+1)`-th call of `__next__` records
the step handed out by the k-th call before it pulls the next value.
`DriveFromBegin` proves this call by call. The call that finds no more
values still records the last step. The pending step is never cleared, so
every later call records it again (`NextAfterExhaustion`).

The pass count is an unbounded `int`. Two checks in CPython bound it:
- `repeat` refuses a count outside a C `Py_ssize_t` with an OverflowError.
  `Iter` models this. The raise comes after `__iter__` has reset the result
  and the step, and before the iterator and the timer change.
- `len()` refuses a negative `__len__` with a ValueError and one above
  `sys.maxsize` (2^63 - 1 on a 64-bit build) with an OverflowError.
  `BuiltinLen` models both. So `Next` raises after pulling a value whenever
  the plan does not fit.
`Begin` is the state that a successful `__iter__` leaves.

The wall clock is a parameter. `Begin` records its reading as the start time,
and each call of `__next__` gets its own reading (`Drive` takes one per call).

## Model

| member | source | states |
|---|---|---|
| `Base.NewStep` | vsweep/base.py:76-81 | a step stores x, y, step number, total and elapsed time unchanged; y and the rest default to None |
| `Base.FromSeqs` | vsweep/base.py:125-129 | a result built from two sequences keeps their order and length |
| `Base.FromPair` | vsweep/base.py:131-133 | a result built from a scalar pair holds the one-element axes `[x]` and `[y]` |
| `Base.Items` | vsweep/base.py:139-140 | iterating a result gives the x axis then the y axis, each of its length, and rebuilding a result from them gives the same result |
| `Base.ItemsRoundTrip` | vsweep/base.py:125-140 | the converse round trip: building a result from two sequences and iterating it gives the two sequences back unchanged |
| `Base.Add` | vsweep/base.py:135-137 | `a + b` puts a's values first and b's after on each axis, with the same values as a multiset: no sorting, no de-duplication |
| `Base.AddPair` | vsweep/base.py:131-137 | adding a scalar pair appends exactly one value to each axis and keeps the existing ones |
| `Base.AddPairAppends` | vsweep/base.py:131-137 | adding a scalar pair `(x, y)` is the same as appending x to the x axis and y to the y axis |
| `Base.AddKeepsAligned` | vsweep/base.py:135-137 | if both operands have axes of equal length, so does the sum |
| `Base.AddIdentity` | vsweep/base.py:135-137 | the empty result is a left and right identity for `+` |
| `Base.AddAssociative` | vsweep/base.py:135-137 | `+` is associative |
| `Vector.New` | vsweep/vector.py:16-26 | a new sweep keeps its configuration and has no result, step, iterator or start time |
| `Vector.ChainRepeat` | vsweep/vector.py:46 | a count of zero or less yields nothing; a shared iterator yields exactly its values not yet consumed; a list yields at least one full copy of itself, first |
| `Vector.PassSource` | vsweep/vector.py:39-43 | the repeated object is a one-shot iterator exactly for a round trip; it starts with the vector, and for a round trip the rest is the vector reversed |
| `Vector.ChainOfList` | vsweep/vector.py:46 | chaining repetitions of a list gives the list cycled that many times (none for a count of zero or less) |
| `Vector.ChainOfIterator` | vsweep/vector.py:41-46 | chaining repetitions of one shared iterator gives its values once, on the first repetition only |
| `Vector.BuildSequence` | vsweep/vector.py:39-46 | with a round trip and at least one pass the lined-up values are the vector and its reverse, once; nothing when `npasses <= 0`; without a round trip at least one copy of the vector |
| `Vector.BuildSequenceCycles` | vsweep/vector.py:39-46 | without a round trip the lined-up values are the vector cycled `npasses` times, none for a count of zero or less |
| `Vector.Len` | vsweep/vector.py:70-77 | the plan is negative exactly for a non-empty vector and negative passes, zero exactly for an empty vector or no passes, even for a round trip, and at least the vector's length for positive passes |
| `Vector.LenVersusSequence` | vsweep/vector.py:70-77 | with `npasses >= 0` and no round trip the planned length equals the emitted count; with a round trip and `npasses >= 1` it equals it exactly for one pass or an empty vector; a non-empty sweep plans at least as many steps as it emits |
| `Vector.RoundtripTurnaround` | vsweep/vector.py:41-43 | a round trip emits the last vector value twice in a row and starts and ends on the first value |
| `Vector.BuiltinLen` | vsweep/vector.py:63 | `len(sweep)` succeeds exactly when the plan lies in `0 .. sys.maxsize` and then returns it; ValueError below, OverflowError above |
| `Vector.ElapsedTime` | vsweep/base.py:27-32 | the timer reads zero before it is started and afterwards the time since the start reading |
| `Vector.Begin` | vsweep/vector.py:32-51 | iterating resets the result to empty, clears the pending step, lines up the values from the start and starts the timer, keeping the configuration |
| `Vector.Iter` | vsweep/vector.py:32-51 | `__iter__` succeeds exactly when the pass count fits a `Py_ssize_t` and then leaves the `Begin` state; otherwise OverflowError with the result already reset and the step cleared but the iterator and timer untouched |
| `Vector.BeginDiscardsProgress` | vsweep/vector.py:34-36 | the state after re-iterating depends only on the configuration and the clock, not on any earlier progress |
| `Vector.Next` | vsweep/vector.py:53-68 | a call appends the pending step's `(x, y)` to the result as `AddPair` does, keeps the axes aligned and the configuration unchanged; a yielded step carries the next value, its 0-based position, a planned total that fits `len()` and the elapsed time; an overflow raise means the plan exceeds `sys.maxsize` |
| `Vector.NextBeforeBegin` | vsweep/vector.py:53-59 | calling next on a sweep never iterated raises and records nothing |
| `Vector.NextPulls` | vsweep/vector.py:56-65 | with no pending step a call records nothing and either ends, raises OverflowError having pulled the value, or hands out the pulled value as the new pending step |
| `Vector.NextRecordsThenPulls` | vsweep/vector.py:56-65 | with a pending step a call first appends its `(x, y)`, then ends, raises OverflowError having pulled the value, or hands out the pulled value as the new pending step |
| `Vector.SetY` | vsweep/vector.py:67-68 | writing y onto the handed-out step changes only that step's y |
| `Vector.SetX` | vsweep/vector.py:67-68 | overwriting x on the handed-out step changes only that step's x |
| `Vector.Drive` | vsweep/vector.py:53-68 | a loop that writes its y values onto the steps it receives, each call reading its own clock value, keeps the configuration, the start time and aligned axes |
| `Vector.FirstNext` | vsweep/vector.py:56-65 | the first call after iterating records nothing and hands out value 0, raises OverflowError when the plan exceeds `sys.maxsize`, or ends when there are no values |
| `Vector.NextWhileRunning` | vsweep/vector.py:56-65 | a call in mid-loop adds the pending step with its written y to the result and hands out the following value, or ends after the last one |
| `Vector.DriveFromBegin` | vsweep/vector.py:53-68 | after a successful `__iter__` (a pass count that fits `Py_ssize_t`), after k written values the loop's next call hands out value k numbered k, timed by that call's clock reading, with exactly the first k steps recorded; after the last value it records the last step and ends |
| `Vector.DriveRecordsLaggingSteps` | vsweep/vector.py:56-64 | after a successful `__iter__` (a pass count that fits `Py_ssize_t`), step numbers run 0, 1, 2, ... with the planned total and the call's elapsed time on each; the result holds the earlier x values in order with their written y, axes aligned; at the end it holds every value |
| `Vector.EmptySweepEndsAtOnce` | vsweep/vector.py:56-59 | after a successful `__iter__` (a pass count that fits `Py_ssize_t`), with an empty vector or no passes the first call ends the iteration with an empty result |
| `Vector.NextAfterExhaustion` | vsweep/vector.py:56-59 | after the end every further call appends the last step to the result again and ends again |
| `Vector.DriveStopsAtEnd` | vsweep/vector.py:59 | after a successful `__iter__` (a pass count that fits `Py_ssize_t`), a loop given more values than steps ends where the values ran out, ignoring the extra ones |

## Left out

- `LinearSweep` and `LogSweep` (vsweep/vector.py:98-121): they compute their vector in floating point with a numerical library, and otherwise delegate to `VectorSweep`.
- `AdaptiveSweep` (vsweep/adaptive.py): a wrapper over a foreign learner library whose sampling algorithm is not part of this source.
- Every `__repr__` (vsweep/base.py:83-107, vsweep/vector.py:79-95): string formatting only.
- The abstract base class `Sweep` (vsweep/base.py:15-49): abstract-method plumbing. Its timer is kept as `ElapsedTime`, with the wall clock passed in as a parameter.
- vsweep/__init__.py: re-exports only.
- `Base.FromSeqs`: Python picks the construction at run time. It tries `list(x)` and `list(y)`, and if either raises TypeError it wraps the pair as `[x]`, `[y]`. The model treats every x and y value as a scalar. A step whose x and y are both iterable is not modelled: for x = "ab" and y = "cd" Python records the axes ['a', 'b'] and ['c', 'd'].
- `Base.FromPair`: used for every recorded step. That matches Python whenever x or y is not iterable, for example while y is still None or a number. The case where both are iterable is the one above.
- `Vector.BuildSequence`: the vector is a sequence. A vector passed as a one-shot iterator, which Python would exhaust on the first pass and refuse in `len()`, is not modelled.
- `Vector.Begin`: the lined-up values are fixed when the iteration starts. Without a round trip, Python's `chain` walks the very list object that `vector` named at `__iter__` (vector.py:39, 46). Mutating that list in place during a loop would change the values still to come; this is not modelled. Reassigning `vector` during a loop does not change those values, and the model agrees. Reassigning `vector`, `roundtrip` or `npasses` changes only `len(self)`, and so the `total` of later steps. `Next` computes `len(self)` from the sweep's current `vector`, `roundtrip` and `npasses` fields on every call, as Python does. The loop lemmas assume the consumer changes only the step's y.
- `Vector.Iter`: building `chain(*repeat(vector, npasses))` unpacks every repetition into an argument tuple. A very large pass count that fits `Py_ssize_t` can therefore raise MemoryError; this is not modelled.
- `Vector.MaxSize`: `sys.maxsize` is taken for a 64-bit build.
- Floating-point timing: the elapsed time is `now - start` in exact reals rather than floats.

=== FILE: base.dfy ===
/**
 The data carriers of a sweep (vsweep/base.py): one step of a sweep and the
 accumulated result.

 Python decides at run time whether the arguments of `SweepResult(x, y)` are
 iterables (copied with `list`) or scalars (wrapped as one-element lists). Here
 the two forms are two constructors, `FromSeqs` and `FromPair`, and the x and y
 values are opaque type parameters.
 */
module Base {
  import opened Wrappers

  /** One step of a sweep: the x to apply, the measured y (unset until the
      consumer writes it), the 0-based step number, the planned number of
      steps and the time elapsed since the sweep started. */
  datatype SweepStep<X, Y> = SweepStep(
    x: X,
    y: Option<Y>,
    n: Option<int>,
    total: Option<int>,
    elapsedTime: Option<real>)

  /** `SweepStep(x, y=None, step_number=None, total=None, elapsed_time=None)`. */
  function NewStep<X, Y>(x: X, y: Option<Y> := None, stepNumber: Option<int> := None,
                         total: Option<int> := None, elapsedTime: Option<real> := None): (s: SweepStep<X, Y>)
    ensures s.x == x && s.y == y && s.n == stepNumber && s.total == total && s.elapsedTime == elapsedTime
  {
    SweepStep(x, y, stepNumber, total, elapsedTime)
  }

  /** Two parallel axes of recorded values. */
  datatype SweepResult<X, Y> = SweepResult(x: seq<X>, y: seq<Y>)

  /** The invariant every result built by a sweep keeps: both axes have the same length. */
  predicate Aligned<X, Y>(r: SweepResult<X, Y>) {
    |r.x| == |r.y|
  }

  /** `SweepResult([], [])`. */
  function Empty<X, Y>(): (r: SweepResult<X, Y>)
    ensures |r.x| == 0 && |r.y| == 0
  {
    SweepResult([], [])
  }

  /** `SweepResult(xs, ys)` with iterable arguments: both are copied as lists. */
  function FromSeqs<X, Y>(xs: seq<X>, ys: seq<Y>): (r: SweepResult<X, Y>)
    ensures |r.x| == |xs| && |r.y| == |ys|
    ensures forall i :: 0 <= i < |xs| ==> r.x[i] == xs[i]
    ensures forall i :: 0 <= i < |ys| ==> r.y[i] == ys[i]
  {
    SweepResult(xs, ys)
  }

  /** `SweepResult(x, y)` with scalar arguments: each is wrapped in a one-element list. */
  function FromPair<X, Y>(x: X, y: Y): (r: SweepResult<X, Y>)
    ensures |r.x| == 1 && r.x[0] == x
    ensures |r.y| == 1 && r.y[0] == y
    ensures Aligned(r)
  {
    SweepResult([x], [y])
  }

  /** `iter(r)`: the two axes, x first. */
  function Items<X, Y>(r: SweepResult<X, Y>): (p: (seq<X>, seq<Y>))
    ensures |p.0| == |r.x| && |p.1| == |r.y|
    ensures FromSeqs(p.0, p.1) == r
  {
    (r.x, r.y)
  }

  /** `a + b` where `b` unpacks to two sequences (another result, or a pair of lists). */
  function Add<X, Y>(a: SweepResult<X, Y>, b: SweepResult<X, Y>): (r: SweepResult<X, Y>)
    ensures |r.x| == |a.x| + |b.x| && |r.y| == |a.y| + |b.y|
    ensures forall i :: 0 <= i < |a.x| ==> r.x[i] == a.x[i]
    ensures forall i :: 0 <= i < |b.x| ==> r.x[|a.x| + i] == b.x[i]
    ensures forall i :: 0 <= i < |a.y| ==> r.y[i] == a.y[i]
    ensures forall i :: 0 <= i < |b.y| ==> r.y[|a.y| + i] == b.y[i]
    ensures multiset(r.x) == multiset(a.x) + multiset(b.x)
    ensures multiset(r.y) == multiset(a.y) + multiset(b.y)
  {
    var o := FromSeqs(Items(b).0, Items(b).1);
    SweepResult(a.x + o.x, a.y + o.y)
  }

  /** `a + [x, y]` with scalar `x` and `y`: one value appended to each axis. */
  function AddPair<X, Y>(a: SweepResult<X, Y>, x: X, y: Y): (r: SweepResult<X, Y>)
    ensures |r.x| == |a.x| + 1 && r.x[..|a.x|] == a.x && r.x[|a.x|] == x
    ensures |r.y| == |a.y| + 1 && r.y[..|a.y|] == a.y && r.y[|a.y|] == y
    ensures Aligned(a) ==> Aligned(r)
  {
    Add(a, FromPair(x, y))
  }

  /** Adding a scalar pair is appending to both axes. */
  lemma AddPairAppends<X, Y>(a: SweepResult<X, Y>, x: X, y: Y)
    ensures AddPair(a, x, y) == SweepResult(a.x + [x], a.y + [y])
  {
    var r := AddPair(a, x, y);
    assert r.x == r.x[..|a.x|] + [r.x[|a.x|]];
    assert r.y == r.y[..|a.y|] + [r.y[|a.y|]];
  }

  /** Concatenation keeps both axes the same length when both operands do. */
  lemma AddKeepsAligned<X, Y>(a: SweepResult<X, Y>, b: SweepResult<X, Y>)
    requires Aligned(a) && Aligned(b)
    ensures Aligned(Add(a, b))
  {
  }

  /** The empty result is a left and right identity for `+`. */
  lemma AddIdentity<X, Y>(a: SweepResult<X, Y>)
    ensures Add(Empty(), a) == a
    ensures Add(a, Empty()) == a
  {
    assert [] + a.x == a.x && [] + a.y == a.y;
    assert a.x + [] == a.x && a.y + [] == a.y;
  }

  /** `+` is associative. */
  lemma AddAssociative<X, Y>(a: SweepResult<X, Y>, b: SweepResult<X, Y>, c: SweepResult<X, Y>)
    ensures Add(Add(a, b), c) == Add(a, Add(b, c))
  {
    assert (a.x + b.x) + c.x == a.x + (b.x + c.x);
    assert (a.y + b.y) + c.y == a.y + (b.y + c.y);
  }

  /** The converse of `Items`' round trip: building a result from two
      sequences and unpacking it gives the two sequences back unchanged. */
  lemma ItemsRoundTrip<X, Y>(xs: seq<X>, ys: seq<Y>)
    ensures Items(FromSeqs(xs, ys)) == (xs, ys)
  {
  }
}

=== FILE: vector.dfy ===
/**
 `VectorSweep` (vsweep/vector.py): a sweep that replays a fixed vector of x
 values, optionally mirrored ("roundtrip") and repeated `npasses` times.

 The Python object is mutable; here its fields form an immutable record and
 each protocol method is a pure function from the old record to the new one:
 `Iter` is `__iter__` (its successful state is `Begin`), `Next` is `__next__`
 (returning a step, the end of the
 iteration or a raised error together with the new record), `Len` is
 `__len__`. The wall clock is a parameter (`now`), and a consumer writing to
 the step it was handed is `SetY` / `SetX` on the sweep's pending step, since
 in Python the sweep and the consumer share that step object.
 */
module Vector {
  import opened Wrappers
  import opened Base

  /* ----------------------------------------------------------------------
     Sequence construction: chain(*repeat(vector, npasses))
     ---------------------------------------------------------------------- */

  /** The object that `repeat` hands to `chain` once per pass. A list is
      iterated afresh on every pass; an iterator object (the one `chain`
      builds for a round trip) is shared by all passes and delivers each of
      its values only once. */
  datatype Source<T> = Reiterable(items: seq<T>) | OneShot(items: seq<T>)

  /** The values `chain` produces from `count` repetitions of the same source
      object, when a shared iterator has already delivered its first
      `consumed` values. `repeat` with a count of zero or less yields nothing. */
  function ChainRepeat<T>(src: Source<T>, count: int, consumed: nat): (r: seq<T>)
    requires consumed <= |src.items|
    ensures count <= 0 ==> r == []
    ensures src.OneShot? && count >= 1 ==> r == src.items[consumed..]
    ensures src.Reiterable? && count >= 1 ==> |r| >= |src.items| && r[..|src.items|] == src.items
    decreases if count < 0 then 0 else count
  {
    if count <= 0 then []
    else match src
      case Reiterable(xs) => xs + ChainRepeat(src, count - 1, consumed)
      case OneShot(xs) => xs[consumed..] + ChainRepeat(src, count - 1, |xs|)
  }

  /** `xs[::-1]`. */
  function Reverse<T>(xs: seq<T>): (r: seq<T>)
    ensures |r| == |xs|
  {
    seq(|xs|, i requires 0 <= i < |xs| => xs[|xs| - 1 - i])
  }

  /** Reference definition of `passes` back-to-back copies of `xs`: position
      `i` holds `xs[i % |xs|]`. */
  function Cycled<T>(xs: seq<T>, passes: nat): (r: seq<T>)
  {
    if |xs| == 0 then [] else seq(|xs| * passes, i requires 0 <= i < |xs| * passes => xs[i % |xs|])
  }

  lemma CycledLength<T>(xs: seq<T>, passes: nat)
    ensures |Cycled(xs, passes)| == |xs| * passes
  {
  }

  lemma MulAtLeast(d: int, n: int)
    requires d >= 1 && n > 0
    ensures d * n >= n
  {
    assert d * n == (d - 1) * n + n;
  }

  /** The sign of a length times a pass count. */
  lemma ProductSign(n: nat, p: int)
    ensures n * p < 0 <==> n > 0 && p < 0
    ensures n * p == 0 <==> n == 0 || p == 0
    ensures p > 0 ==> n * p >= n
  {
    if n > 0 && p > 0 {
      MulAtLeast(p, n);
    } else if n > 0 && p < 0 {
      MulAtLeast(-p, n);
      assert n * p == -((-p) * n);
    }
  }

  /** Euclidean division has a unique quotient and remainder. */
  lemma DivModUnique(a: int, n: int, q: int, r: int)
    requires n > 0 && 0 <= r < n && a == q * n + r
    ensures a % n == r
  {
    var q0, r0 := a / n, a % n;
    assert a == q0 * n + r0;
    assert (q - q0) * n == r0 - r;
    if q > q0 {
      MulAtLeast(q - q0, n);
    } else if q < q0 {
      MulAtLeast(q0 - q, n);
    }
  }

  lemma ModShift(i: int, n: int)
    requires 0 < n <= i
    ensures (i - n) % n == i % n
  {
    var q, r := i / n, i % n;
    assert i == q * n + r;
    assert i - n == (q - 1) * n + r;
    DivModUnique(i - n, n, q - 1, r);
  }

  /** Chaining a list with itself `count` times is the cyclic reference. */
  lemma CycledStep<T>(xs: seq<T>, passes: nat)
    requires |xs| > 0 && passes > 0
    ensures Cycled(xs, passes) == xs + Cycled(xs, passes - 1)
  {
    var rest := Cycled(xs, passes - 1);
    var whole := Cycled(xs, passes);
    assert |xs| * passes == |xs| + |xs| * (passes - 1);
    forall i | 0 <= i < |whole|
      ensures whole[i] == (xs + rest)[i]
    {
      if i >= |xs| {
        ModShift(i, |xs|);
        assert (xs + rest)[i] == rest[i - |xs|];
      } else {
        assert i % |xs| == i;
      }
    }
  }

  /** Chaining a list with itself `count` times is the cyclic reference. */
  lemma {:induction false} ChainOfList<T>(xs: seq<T>, count: int, consumed: nat)
    requires consumed <= |xs|
    ensures ChainRepeat(Reiterable(xs), count, consumed) == Cycled(xs, if count < 0 then 0 else count)
    decreases if count < 0 then 0 else count
  {
    if count > 0 {
      ChainOfList(xs, count - 1, consumed);
      if |xs| > 0 {
        CycledStep(xs, count);
      } else {
        assert xs + [] == [];
      }
    }
  }

  /** A shared iterator delivers all its values on the first pass and
      nothing on any later one. */
  lemma {:induction false} ChainOfIterator<T>(xs: seq<T>, count: int, consumed: nat)
    requires consumed <= |xs|
    ensures ChainRepeat(OneShot(xs), count, consumed) == if count >= 1 then xs[consumed..] else []
    decreases if count < 0 then 0 else count
  {
    if count > 1 {
      ChainOfIterator(xs, count - 1, |xs|);
      assert xs[|xs|..] == [];
      assert xs[consumed..] + [] == xs[consumed..];
    } else if count == 1 {
      assert ChainRepeat(OneShot(xs), 0, |xs|) == [];
      assert xs[consumed..] + [] == xs[consumed..];
    }
  }

  /* ----------------------------------------------------------------------
     The sweep record
     ---------------------------------------------------------------------- */

  /** `enumerate(...)` over a fixed sequence: `count` values have been pulled. */
  datatype Enumeration<T> = Enumeration(values: seq<T>, count: nat)

  /** The fields of a `VectorSweep` object: its configuration, the start
      time of the timer, and the iteration state `__iter__` sets up. The y
      axis of the result holds what the consumer wrote into `step.y`, so it is
      optional. */
  datatype VectorSweep<X, Y> = VectorSweep(
    vector: seq<X>,
    roundtrip: bool,
    npasses: int,
    startTime: Option<real>,
    result: Option<SweepResult<X, Option<Y>>>,
    step: Option<SweepStep<X, Y>>,
    cursor: Option<Enumeration<X>>)

  /** Two sweeps with the same vector, round-trip flag and pass count. */
  predicate SameConfig<X(==), Y>(a: VectorSweep<X, Y>, b: VectorSweep<X, Y>) {
    a.vector == b.vector && a.roundtrip == b.roundtrip && a.npasses == b.npasses
  }

  /** `VectorSweep(vector, roundtrip=False, npasses=1)`: configured, not started. */
  function New<X, Y>(vector: seq<X>, roundtrip: bool := false, npasses: int := 1): (sw: VectorSweep<X, Y>)
    ensures sw.vector == vector && sw.roundtrip == roundtrip && sw.npasses == npasses
    ensures sw.startTime.None? && sw.result.None? && sw.step.None? && sw.cursor.None?
  {
    VectorSweep(vector, roundtrip, npasses, None, None, None, None)
  }

  /** The object repeated once per pass: the vector itself, or for a round
      trip one iterator over the vector followed by its reverse. */
  function PassSource<X, Y>(sw: VectorSweep<X, Y>): (src: Source<X>)
    ensures src.OneShot? <==> sw.roundtrip
    ensures |src.items| == (if sw.roundtrip then 2 else 1) * |sw.vector|
    ensures src.items[..|sw.vector|] == sw.vector
    ensures sw.roundtrip ==> src.items[|sw.vector|..] == Reverse(sw.vector)
  {
    if sw.roundtrip then OneShot(sw.vector + Reverse(sw.vector)) else Reiterable(sw.vector)
  }

  /** The x values `__iter__` lines up for one iteration. With a round trip,
      the vector followed by its reverse exactly once however many passes
      are asked for; without one, the vector repeated `npasses` times
      (`BuildSequenceCycles`). */
  function BuildSequence<X, Y>(sw: VectorSweep<X, Y>): (xs: seq<X>)
    ensures sw.roundtrip && sw.npasses >= 1 ==> xs == sw.vector + Reverse(sw.vector)
    ensures !sw.roundtrip && sw.npasses >= 1 ==> |xs| >= |sw.vector|
    ensures sw.npasses <= 0 ==> xs == []
  {
    if sw.roundtrip then
      ChainOfIterator(sw.vector + Reverse(sw.vector), sw.npasses, 0);
      ChainRepeat(PassSource(sw), sw.npasses, 0)
    else
      ChainRepeat(PassSource(sw), sw.npasses, 0)
  }

  /** Without a round trip the lined-up values are the vector cycled
      `npasses` times (none for a count of zero or less). */
  lemma BuildSequenceCycles<X, Y>(sw: VectorSweep<X, Y>)
    requires !sw.roundtrip
    ensures BuildSequence(sw) == Cycled(sw.vector, if sw.npasses < 0 then 0 else sw.npasses)
  {
    ChainOfList(sw.vector, sw.npasses, 0);
  }

  /** `__len__`: the planned number of steps, `len(vector) * npasses`,
      doubled for a round trip. */
  function Len<X, Y>(sw: VectorSweep<X, Y>): (total: int)
    ensures total < 0 <==> |sw.vector| > 0 && sw.npasses < 0
    ensures total == 0 <==> |sw.vector| == 0 || sw.npasses == 0
    ensures sw.roundtrip ==> total % 2 == 0
    ensures sw.npasses > 0 ==> total >= |sw.vector|
  {
    ProductSign(|sw.vector|, sw.npasses);
    var total := |sw.vector| * sw.npasses;
    if sw.roundtrip then total * 2 else total
  }

  /** `sys.maxsize` on a 64-bit build: the largest value of a C `Py_ssize_t`. */
  const MaxSize: int := 0x7fff_ffff_ffff_ffff

  /** Whether an integer fits a C `Py_ssize_t`, as `repeat`'s count must. */
  predicate FitsSsize(n: int) {
    -MaxSize - 1 <= n <= MaxSize
  }

  /** `len(sweep)`: Python refuses a negative `__len__` with a ValueError and
      one above `sys.maxsize` with an OverflowError. */
  function BuiltinLen<X, Y>(sw: VectorSweep<X, Y>): (r: Result<nat, Error>)
    ensures r.Success? <==> 0 <= Len(sw) <= MaxSize
    ensures r.Success? ==> r.value == Len(sw)
    ensures Len(sw) < 0 ==> r == Failure(NegativeLength)
    ensures Len(sw) > MaxSize ==> r == Failure(Overflow)
  {
    var n := Len(sw);
    if n < 0 then Failure(NegativeLength)
    else if n > MaxSize then Failure(Overflow)
    else Success(n)
  }

  /** The timer: zero before it is started, else the time since the start. */
  function ElapsedTime<X, Y>(sw: VectorSweep<X, Y>, now: real): (elapsed: real)
    ensures sw.startTime.None? ==> elapsed == 0.0
    ensures sw.startTime.Some? ==> sw.startTime.value + elapsed == now
  {
    match sw.startTime
    case None => 0.0
    case Some(t) => now - t
  }

  /** The fields a successful `__iter__` leaves: the result reset, the
      pending step forgotten, the x values lined up, the timer started. */
  function Begin<X, Y>(sw: VectorSweep<X, Y>, now: real): (r: VectorSweep<X, Y>)
    ensures SameConfig(r, sw)
    ensures r.result == Some(Empty()) && r.step.None?
    ensures r.cursor == Some(Enumeration(BuildSequence(sw), 0))
    ensures r.startTime == Some(now) && ElapsedTime(r, now) == 0.0
  {
    sw.(result := Some(SweepResult([], [])),
        step := None,
        cursor := Some(Enumeration(BuildSequence(sw), 0)),
        startTime := Some(now))
  }

  /** The exceptions `__iter__` and `__next__` can raise besides the end of
      the iteration. */
  datatype Error =
    | NotStarted      // `next(None)`: the sweep was never iterated
    | NoResult        // `None + [x, y]`: a pending step but no result object
    | NegativeLength  // `len(self)` refused a negative `__len__` (ValueError)
    | Overflow        // a count beyond `Py_ssize_t` (OverflowError)

  /** What one call of `__iter__` does: return the sweep, or raise. */
  datatype Started<X, Y> =
    | Iterating(sweep: VectorSweep<X, Y>)
    | IterRaised(error: Error, sweep: VectorSweep<X, Y>)

  /** `__iter__`: resets the result and the pending step, then builds the
      iterator. `repeat` refuses a pass count outside `Py_ssize_t`, after the
      reset has happened and before the iterator and the timer change. */
  function Iter<X, Y>(sw: VectorSweep<X, Y>, now: real): (o: Started<X, Y>)
    ensures o.Iterating? <==> FitsSsize(sw.npasses)
    ensures o.Iterating? ==> o.sweep == Begin(sw, now)
    ensures o.IterRaised? ==>
              && o.error == Overflow
              && SameConfig(o.sweep, sw)
              && o.sweep.result == Some(Empty()) && o.sweep.step.None?
              && o.sweep.cursor == sw.cursor && o.sweep.startTime == sw.startTime
  {
    var reset := sw.(result := Some(SweepResult([], [])), step := None);
    if FitsSsize(sw.npasses) then Iterating(Begin(sw, now)) else IterRaised(Overflow, reset)
  }

  /** What one call of `__next__` does: hand out a step, end the iteration
      (StopIteration) or raise; in each case with the sweep's new fields. */
  datatype Outcome<X, Y> =
    | Yielded(step: SweepStep<X, Y>, sweep: VectorSweep<X, Y>)
    | Exhausted(sweep: VectorSweep<X, Y>)
    | Raised(error: Error, sweep: VectorSweep<X, Y>)

  /** `__next__`: first folds the pending step's `(x, y)` into the result,
      then pulls the next value and makes it the pending step, numbered by
      its position and carrying the planned total. */
  function Next<X, Y>(sw: VectorSweep<X, Y>, now: real): (o: Outcome<X, Y>)
    ensures SameConfig(o.sweep, sw) && o.sweep.startTime == sw.startTime
    ensures sw.result.Some? && Aligned(sw.result.value) ==> o.sweep.result.Some? && Aligned(o.sweep.result.value)
    ensures sw.step.None? && !o.Raised? ==> o.sweep.result == sw.result
    ensures sw.step.Some? && sw.result.Some? ==>
              o.sweep.result == Some(AddPair(sw.result.value, sw.step.value.x, sw.step.value.y))
    ensures o.Yielded? ==> sw.cursor.Some?
    ensures o.Yielded? ==>
              var it := sw.cursor.value;
              && it.count < |it.values|
              && o.step.x == it.values[it.count] && o.step.y.None?
              && o.step.n == Some(it.count as int) && o.step.total == Some(Len(sw))
              && 0 <= Len(sw) <= MaxSize
              && o.step.elapsedTime == Some(ElapsedTime(sw, now))
              && o.sweep.step == Some(o.step)
              && o.sweep.cursor == Some(Enumeration(it.values, it.count + 1))
    ensures o.Raised? && o.error == Overflow ==> Len(sw) > MaxSize
  {
    if sw.step.Some? && sw.result.None? then Raised(NoResult, sw)
    else
      var recorded :=
        if sw.step.Some? then sw.(result := Some(AddPair(sw.result.value, sw.step.value.x, sw.step.value.y)))
        else sw;
      match recorded.cursor
      case None => Raised(NotStarted, recorded)
      case Some(it) =>
        if it.count >= |it.values| then Exhausted(recorded)
        else
          var advanced := recorded.(cursor := Some(Enumeration(it.values, it.count + 1)));
          match BuiltinLen(advanced)
          case Failure(e) => Raised(e, advanced)
          case Success(total) =>
            var st := NewStep(it.values[it.count], None, Some(it.count as int), Some(total as int),
                              Some(ElapsedTime(advanced, now)));
            Yielded(st, advanced.(step := Some(st)))
  }

  /** The consumer writes `step.y` on the step it was handed. */
  function SetY<X, Y>(sw: VectorSweep<X, Y>, y: Option<Y>): (r: VectorSweep<X, Y>)
    ensures r.step.Some? <==> sw.step.Some?
    ensures sw.step.Some? ==> r.step.value.y == y && r.step.value.x == sw.step.value.x
                              && r.step.value.n == sw.step.value.n && r.step.value.total == sw.step.value.total
                              && r.step.value.elapsedTime == sw.step.value.elapsedTime
    ensures r.(step := sw.step) == sw
  {
    match sw.step
    case None => sw
    case Some(st) => sw.(step := Some(st.(y := y)))
  }

  /** The consumer overwrites `step.x` on the step it was handed. */
  function SetX<X, Y>(sw: VectorSweep<X, Y>, x: X): (r: VectorSweep<X, Y>)
    ensures r.step.Some? <==> sw.step.Some?
    ensures sw.step.Some? ==> r.step.value.x == x && r.step.value.y == sw.step.value.y
                              && r.step.value.n == sw.step.value.n && r.step.value.total == sw.step.value.total
                              && r.step.value.elapsedTime == sw.step.value.elapsedTime
    ensures r.(step := sw.step) == sw
  {
    match sw.step
    case None => sw
    case Some(st) => sw.(step := Some(st.(x := x)))
  }

  /** A `for step in sweep` loop whose body writes `ys[i]` into the i-th step
      it receives: the outcome of its `|ys| + 1`-th call of `__next__`, where
      call i reads the clock as `times[i]`. The loop stops at the first call
      that does not yield a step. */
  function Drive<X, Y>(sw: VectorSweep<X, Y>, ys: seq<Option<Y>>, times: seq<real>): (o: Outcome<X, Y>)
    requires |times| == |ys| + 1
    ensures SameConfig(o.sweep, sw) && o.sweep.startTime == sw.startTime
    ensures sw.result.Some? && Aligned(sw.result.value) ==> o.sweep.result.Some? && Aligned(o.sweep.result.value)
    decreases |ys|
  {
    if |ys| == 0 then Next(sw, times[0])
    else
      var k := |ys| - 1;
      var prev := Drive(sw, ys[..k], times[..k + 1]);
      if prev.Yielded? then Next(SetY(prev.sweep, ys[k]), times[k + 1]) else prev
  }

  /* ----------------------------------------------------------------------
     Properties
     ---------------------------------------------------------------------- */

  /** The planned length against the number of x values actually lined up.
      Without a round trip they agree; with one, only the first pass emits
      values, so the plan overstates the steps whenever there are two or more
      passes over a non-empty vector. */
  lemma LenVersusSequence<X, Y>(sw: VectorSweep<X, Y>)
    ensures !sw.roundtrip && sw.npasses >= 0 ==> |BuildSequence(sw)| == Len(sw)
    ensures sw.roundtrip && sw.npasses >= 1 ==> |BuildSequence(sw)| == 2 * |sw.vector|
    ensures sw.roundtrip && sw.npasses >= 1 ==>
              (|BuildSequence(sw)| == Len(sw) <==> sw.npasses == 1 || |sw.vector| == 0)
    ensures sw.npasses <= 0 ==> |BuildSequence(sw)| == 0
    ensures |BuildSequence(sw)| > 0 ==> Len(sw) >= |BuildSequence(sw)|
  {
    var n := |sw.vector|;
    if sw.npasses >= 1 {
      MulAtLeast(sw.npasses, n + 1);
      assert n * sw.npasses >= n;
      if sw.roundtrip && n > 0 && sw.npasses != 1 {
        MulAtLeast(sw.npasses - 1, n);
        assert n * sw.npasses == n * (sw.npasses - 1) + n;
      }
    }
    if !sw.roundtrip {
      BuildSequenceCycles(sw);
      if sw.npasses >= 0 {
        CycledLength(sw.vector, sw.npasses);
      }
    }
  }

  /** With a round trip the turnaround value is emitted twice in a row:
      the last value of the forward half is followed by itself. */
  lemma RoundtripTurnaround<X, Y>(sw: VectorSweep<X, Y>)
    requires sw.roundtrip && sw.npasses >= 1 && |sw.vector| > 0
    ensures var xs := BuildSequence(sw); var n := |sw.vector|;
      |xs| == 2 * n && xs[n - 1] == xs[n] == sw.vector[n - 1]
      && xs[0] == xs[2 * n - 1] == sw.vector[0]
  {
  }

  /** Re-iterating discards everything an earlier iteration did: the state
      after `__iter__` depends only on the configuration and the clock. */
  lemma BeginDiscardsProgress<X, Y>(a: VectorSweep<X, Y>, b: VectorSweep<X, Y>, now: real)
    requires SameConfig(a, b)
    ensures Begin(a, now) == Begin(b, now)
    ensures Begin(a, now).result == Some(SweepResult([], []))
  {
  }

  /** `__next__` on a sweep that was never iterated fails without recording. */
  lemma NextBeforeBegin<X, Y>(vector: seq<X>, roundtrip: bool, npasses: int, now: real)
    ensures Next(New<X, Y>(vector, roundtrip, npasses), now)
            == Raised(NotStarted, New<X, Y>(vector, roundtrip, npasses))
  {
  }

  /** The step handed out by the `(k+1)`-th call after `__iter__`, made at
      clock reading `now`. */
  function StepAt<X, Y>(sw: VectorSweep<X, Y>, k: nat, start: real, now: real): (st: SweepStep<X, Y>)
    requires k < |BuildSequence(sw)|
  {
    SweepStep(BuildSequence(sw)[k], None, Some(k as int), Some(Len(sw)), Some(now - start))
  }

  /** The sweep's fields after the `(|ys|+1)`-th call, made at `now`, that
      still yields. */
  function Running<X, Y>(sw: VectorSweep<X, Y>, ys: seq<Option<Y>>, start: real, now: real): (r: VectorSweep<X, Y>)
    requires |ys| < |BuildSequence(sw)|
  {
    var xs := BuildSequence(sw);
    VectorSweep(sw.vector, sw.roundtrip, sw.npasses, Some(start),
                Some(SweepResult(xs[..|ys|], ys)),
                Some(StepAt(sw, |ys|, start, now)),
                Some(Enumeration(xs, |ys| + 1)))
  }

  /** The sweep's fields after the call that ends the iteration; `last` is
      the clock reading of the call that handed out the last step. */
  function Finished<X, Y>(sw: VectorSweep<X, Y>, ys: seq<Option<Y>>, start: real, last: real): (r: VectorSweep<X, Y>)
    requires |ys| == |BuildSequence(sw)|
  {
    var xs := BuildSequence(sw);
    VectorSweep(sw.vector, sw.roundtrip, sw.npasses, Some(start),
                Some(SweepResult(xs, ys)),
                if |xs| == 0 then None else Some(StepAt(sw, |xs| - 1, start, last).(y := ys[|xs| - 1])),
                Some(Enumeration(xs, |xs|)))
  }

  /** The first call after `__iter__` records nothing and hands out the
      first value; it raises when the plan does not fit `len()`, having
      pulled the value; it ends at once when there is no value. */
  lemma FirstNext<X, Y>(sw: VectorSweep<X, Y>, start: real, now: real)
    ensures 0 < |BuildSequence(sw)| && Len(sw) <= MaxSize ==>
              Next(Begin(sw, start), now) == Yielded(StepAt(sw, 0, start, now), Running(sw, [], start, now))
    ensures 0 < |BuildSequence(sw)| && Len(sw) > MaxSize ==>
              Next(Begin(sw, start), now)
              == Raised(Overflow, Begin(sw, start).(cursor := Some(Enumeration(BuildSequence(sw), 1))))
    ensures 0 == |BuildSequence(sw)| ==>
              Next(Begin(sw, start), now) == Exhausted(Finished(sw, [], start, now))
  {
    assert |BuildSequence(sw)| > 0 ==> sw.npasses > 0;
    var xs := BuildSequence(sw);
    var s0 := Begin(sw, start);
    assert s0.cursor == Some(Enumeration(xs, 0)) && s0.step.None?;
    assert ElapsedTime(s0, now) == now - start;
    assert Len(s0) == Len(sw);
    NextPulls(s0, now);
    assert xs[..0] == [];
  }

  /** A call on a started sweep with no pending step only pulls. */
  lemma NextPulls<X, Y>(sw: VectorSweep<X, Y>, now: real)
    requires sw.step.None? && sw.cursor.Some?
    ensures var it := sw.cursor.value;
      var advanced := sw.(cursor := Some(Enumeration(it.values, it.count + 1)));
      && (it.count >= |it.values| ==> Next(sw, now) == Exhausted(sw))
      && (it.count < |it.values| && Len(sw) > MaxSize ==> Next(sw, now) == Raised(Overflow, advanced))
      && (it.count < |it.values| && 0 <= Len(sw) <= MaxSize ==>
            var st := SweepStep(it.values[it.count], None, Some(it.count as int), Some(Len(sw)),
                                Some(ElapsedTime(sw, now)));
            Next(sw, now) == Yielded(st, advanced.(step := Some(st))))
  {
  }

  /** A call on a started sweep with a pending step: record, then pull. */
  lemma NextRecordsThenPulls<X, Y>(sw: VectorSweep<X, Y>, now: real)
    requires sw.step.Some? && sw.result.Some? && sw.cursor.Some?
    ensures var it := sw.cursor.value;
      var recorded := sw.(result := Some(AddPair(sw.result.value, sw.step.value.x, sw.step.value.y)));
      && (it.count >= |it.values| ==> Next(sw, now) == Exhausted(recorded))
      && (it.count < |it.values| && Len(sw) > MaxSize ==>
            Next(sw, now) == Raised(Overflow, recorded.(cursor := Some(Enumeration(it.values, it.count + 1)))))
      && (it.count < |it.values| && 0 <= Len(sw) <= MaxSize ==>
            var st := SweepStep(it.values[it.count], None, Some(it.count as int), Some(Len(sw)),
                                Some(ElapsedTime(sw, now)));
            Next(sw, now) == Yielded(st, recorded.(cursor := Some(Enumeration(it.values, it.count + 1)),
                                                   step := Some(st))))
  {
  }

  /** One call in the middle of the loop, made at `now'`: the step that was
      pending, with the y written on it, joins the result, and the next
      value is handed out. */
  lemma NextWhileRunning<X, Y>(sw: VectorSweep<X, Y>, ys: seq<Option<Y>>, y: Option<Y>,
                               start: real, now: real, now': real)
    requires |ys| < |BuildSequence(sw)| && Len(sw) <= MaxSize
    ensures |ys| + 1 < |BuildSequence(sw)| ==>
              Next(SetY(Running(sw, ys, start, now), y), now')
              == Yielded(StepAt(sw, |ys| + 1, start, now'), Running(sw, ys + [y], start, now'))
    ensures |ys| + 1 == |BuildSequence(sw)| ==>
              Next(SetY(Running(sw, ys, start, now), y), now') == Exhausted(Finished(sw, ys + [y], start, now))
  {
    if |ys| + 1 < |BuildSequence(sw)| {
      MidLoopYields(sw, ys, y, start, now, now');
    } else {
      MidLoopEnds(sw, ys, y, start, now, now');
    }
  }

  lemma MidLoopYields<X, Y>(sw: VectorSweep<X, Y>, ys: seq<Option<Y>>, y: Option<Y>,
                            start: real, now: real, now': real)
    requires |ys| + 1 < |BuildSequence(sw)| && Len(sw) <= MaxSize
    ensures Next(SetY(Running(sw, ys, start, now), y), now')
            == Yielded(StepAt(sw, |ys| + 1, start, now'), Running(sw, ys + [y], start, now'))
  {
    var told := SetY(Running(sw, ys, start, now), y);
    NextStateIsRunning(sw, ys, y, start, now, now');
    NextRecordsThenPulls(told, now');
  }

  /** Recording a pending step that is not the last and pulling the next
      value gives the fields `Running` describes. */
  lemma NextStateIsRunning<X, Y>(sw: VectorSweep<X, Y>, ys: seq<Option<Y>>, y: Option<Y>,
                                 start: real, now: real, now': real)
    requires |ys| + 1 < |BuildSequence(sw)| && Len(sw) <= MaxSize
    ensures var told := SetY(Running(sw, ys, start, now), y);
      && told.step.Some? && told.result.Some? && told.cursor.Some?
      && var it := told.cursor.value;
      && it.count < |it.values| && 0 <= Len(told) <= MaxSize
      && var st := SweepStep(it.values[it.count], None, Some(it.count as int), Some(Len(told)),
                             Some(ElapsedTime(told, now')));
      && st == StepAt(sw, |ys| + 1, start, now')
      && told.(result := Some(AddPair(told.result.value, told.step.value.x, told.step.value.y)))
             .(cursor := Some(Enumeration(it.values, it.count + 1)), step := Some(st))
         == Running(sw, ys + [y], start, now')
  {
    PulledStepIsStepAt(sw, ys, y, start, now, now');
    RecordedStateIsRunning(sw, ys, y, start, now, now');
  }

  /** The step pulled after a pending step that is not the last is `StepAt`. */
  lemma PulledStepIsStepAt<X, Y>(sw: VectorSweep<X, Y>, ys: seq<Option<Y>>, y: Option<Y>,
                                 start: real, now: real, now': real)
    requires |ys| + 1 < |BuildSequence(sw)| && Len(sw) <= MaxSize
    ensures var told := SetY(Running(sw, ys, start, now), y);
      && told.cursor.Some?
      && var it := told.cursor.value;
      && it.count < |it.values| && 0 <= Len(told) <= MaxSize
      && SweepStep(it.values[it.count], None, Some(it.count as int), Some(Len(told)), Some(ElapsedTime(told, now')))
         == StepAt(sw, |ys| + 1, start, now')
  {
    var told := SetY(Running(sw, ys, start, now), y);
    ToldFacts(sw, ys, y, start, now, now');
    StepAtMatches(sw, |ys| + 1, start, now', told.cursor.value, Len(told), ElapsedTime(told, now'));
  }

  /** Recording a pending step that is not the last and advancing to
      `StepAt` gives the fields `Running` describes. */
  lemma RecordedStateIsRunning<X, Y>(sw: VectorSweep<X, Y>, ys: seq<Option<Y>>, y: Option<Y>,
                                     start: real, now: real, now': real)
    requires |ys| + 1 < |BuildSequence(sw)| && Len(sw) <= MaxSize
    ensures var told := SetY(Running(sw, ys, start, now), y);
      && told.step.Some? && told.result.Some? && told.cursor.Some?
      && told.(result := Some(AddPair(told.result.value, told.step.value.x, told.step.value.y)))
             .(cursor := Some(Enumeration(told.cursor.value.values, told.cursor.value.count + 1)),
               step := Some(StepAt(sw, |ys| + 1, start, now')))
         == Running(sw, ys + [y], start, now')
  {
    var xs := BuildSequence(sw);
    var k := |ys|;
    var told := SetY(Running(sw, ys, start, now), y);
    ToldFacts(sw, ys, y, start, now, now');
    assert told.step.value.x == xs[k] && told.step.value.y == y;
    AddPairAppends(told.result.value, xs[k], y);
    RunningAfter(sw, ys, y, start, now');
    assert told.(result := Some(AddPair(told.result.value, xs[k], y)))
               .(cursor := Some(Enumeration(xs, k + 2)), step := Some(StepAt(sw, k + 1, start, now')))
           == VectorSweep(sw.vector, sw.roundtrip, sw.npasses, Some(start),
                          Some(SweepResult(xs[..k] + [xs[k]], ys + [y])),
                          Some(StepAt(sw, k + 1, start, now')),
                          Some(Enumeration(xs, k + 2)));
  }

  /** The fields of a running sweep once the consumer has written `y`. */
  lemma ToldFacts<X, Y>(sw: VectorSweep<X, Y>, ys: seq<Option<Y>>, y: Option<Y>, start: real, now: real, now': real)
    requires |ys| + 1 < |BuildSequence(sw)| && Len(sw) <= MaxSize
    ensures var xs := BuildSequence(sw); var told := SetY(Running(sw, ys, start, now), y);
      && SameConfig(told, sw) && told.startTime == Some(start)
      && told.result == Some(SweepResult(xs[..|ys|], ys))
      && told.step == Some(StepAt(sw, |ys|, start, now).(y := y))
      && told.cursor == Some(Enumeration(xs, |ys| + 1))
      && Len(told) == Len(sw) && 0 <= Len(sw)
      && ElapsedTime(told, now') == now' - start
  {
    assert sw.npasses > 0;
  }

  /** `Running` one step further on, spelled out field by field. */
  lemma RunningAfter<X, Y>(sw: VectorSweep<X, Y>, ys: seq<Option<Y>>, y: Option<Y>, start: real, now': real)
    requires |ys| + 1 < |BuildSequence(sw)|
    ensures var xs := BuildSequence(sw); var k := |ys|;
      Running(sw, ys + [y], start, now')
      == VectorSweep(sw.vector, sw.roundtrip, sw.npasses, Some(start),
                     Some(SweepResult(xs[..k] + [xs[k]], ys + [y])),
                     Some(StepAt(sw, k + 1, start, now')),
                     Some(Enumeration(xs, k + 2)))
  {
    var xs := BuildSequence(sw);
    var k := |ys|;
    assert xs[..k] + [xs[k]] == xs[..k + 1];
  }

  lemma MidLoopEnds<X, Y>(sw: VectorSweep<X, Y>, ys: seq<Option<Y>>, y: Option<Y>,
                          start: real, now: real, now': real)
    requires |ys| + 1 == |BuildSequence(sw)| && Len(sw) <= MaxSize
    ensures Next(SetY(Running(sw, ys, start, now), y), now') == Exhausted(Finished(sw, ys + [y], start, now))
  {
    var told := SetY(Running(sw, ys, start, now), y);
    EndStateIsFinished(sw, ys, y, start, now);
    NextRecordsThenPulls(told, now');
  }

  /** Recording the last pending step gives the final fields. */
  lemma EndStateIsFinished<X, Y>(sw: VectorSweep<X, Y>, ys: seq<Option<Y>>, y: Option<Y>, start: real, now: real)
    requires |ys| + 1 == |BuildSequence(sw)|
    ensures var told := SetY(Running(sw, ys, start, now), y);
      && told.step.Some? && told.result.Some? && told.cursor.Some?
      && told.cursor.value.count >= |told.cursor.value.values|
      && told.(result := Some(AddPair(told.result.value, told.step.value.x, told.step.value.y)))
         == Finished(sw, ys + [y], start, now)
  {
    var xs := BuildSequence(sw);
    var k := |ys|;
    assert xs[..k] + [xs[k]] == xs[..k + 1] == xs;
  }

  /** `StepAt` is the step `Next` builds from the enumeration's next value. */
  lemma StepAtMatches<X, Y>(sw: VectorSweep<X, Y>, k: nat, start: real, now: real,
                            it: Enumeration<X>, total: int, elapsed: real)
    requires it.values == BuildSequence(sw) && it.count == k < |it.values|
    requires total == Len(sw) && elapsed == now - start
    ensures StepAt(sw, k, start, now)
            == SweepStep(it.values[it.count], None, Some(it.count as int), Some(total), Some(elapsed))
  {
  }

  /** The whole recording protocol, call by call, for a pass count that
      `repeat` accepts and a plan that `len()` accepts. After `__iter__`
      (which then succeeds, with the state `Begin`), the `(k+1)`-th call of `__next__` (k = |ys|
      values written so far) hands out the k-th lined-up x numbered k with
      the planned total and its own elapsed time, while the result holds
      exactly the k earlier x values with the y written on each: the result
      lags one step behind. The call after the last value records the last
      step and ends the iteration. */
  lemma {:induction false} DriveFromBegin<X, Y>(sw: VectorSweep<X, Y>, ys: seq<Option<Y>>, start: real, times: seq<real>)
    requires FitsSsize(sw.npasses)
    requires |ys| <= |BuildSequence(sw)| && |times| == |ys| + 1 && Len(sw) <= MaxSize
    ensures |ys| < |BuildSequence(sw)| ==>
              Drive(Begin(sw, start), ys, times)
              == Yielded(StepAt(sw, |ys|, start, times[|ys|]), Running(sw, ys, start, times[|ys|]))
    ensures |ys| == |BuildSequence(sw)| ==>
              Drive(Begin(sw, start), ys, times)
              == Exhausted(Finished(sw, ys, start, if |ys| == 0 then start else times[|ys| - 1]))
    decreases |ys|
  {
    if |ys| == 0 {
      FirstNext(sw, start, times[0]);
    } else {
      var k := |ys| - 1;
      var prefix := ys[..k];
      assert prefix + [ys[k]] == ys;
      DriveFromBegin(sw, prefix, start, times[..k + 1]);
      var prev := Drive(Begin(sw, start), prefix, times[..k + 1]);
      assert prev == Yielded(StepAt(sw, k, start, times[k]), Running(sw, prefix, start, times[k]));
      DriveUnfold(Begin(sw, start), ys, times);
      NextWhileRunning(sw, prefix, ys[k], start, times[k], times[k + 1]);
    }
  }

  lemma DriveUnfold<X, Y>(sw: VectorSweep<X, Y>, ys: seq<Option<Y>>, times: seq<real>)
    requires |ys| > 0 && |times| == |ys| + 1
    ensures var k := |ys| - 1;
      Drive(sw, ys[..k], times[..k + 1]).Yielded? ==>
        Drive(sw, ys, times) == Next(SetY(Drive(sw, ys[..k], times[..k + 1]).sweep, ys[k]), times[k + 1])
  {
  }

  /** The readable consequences of `DriveFromBegin`: step numbers count
      0, 1, 2, ... with the planned total on every step and the elapsed
      time of its own call, the first call records nothing, and once the
      values run out the result holds every lined-up x paired with the y
      written on its step. */
  lemma DriveRecordsLaggingSteps<X, Y>(sw: VectorSweep<X, Y>, ys: seq<Option<Y>>, start: real, times: seq<real>)
    requires FitsSsize(sw.npasses)
    requires |ys| <= |BuildSequence(sw)| && |times| == |ys| + 1 && Len(sw) <= MaxSize
    ensures var o := Drive(Begin(sw, start), ys, times);
      && (|ys| < |BuildSequence(sw)| <==> o.Yielded?)
      && (o.Yielded? ==> o.step.x == BuildSequence(sw)[|ys|] && o.step.n == Some(|ys|)
                         && o.step.total == Some(Len(sw)) && o.step.y.None?
                         && o.step.elapsedTime == Some(times[|ys|] - start))
      && o.sweep.result.Some? && Aligned(o.sweep.result.value)
      && o.sweep.result.value.y == ys
      && o.sweep.result.value.x == BuildSequence(sw)[..|ys|]
  {
    DriveFromBegin(sw, ys, start, times);
    var xs := BuildSequence(sw);
    if |ys| == |xs| {
      assert xs[..|ys|] == xs;
    }
  }

  /** After a successful `__iter__`, an empty lined-up sequence (an empty
      vector, or no passes) ends the iteration on the first call with an
      empty result. */
  lemma EmptySweepEndsAtOnce<X, Y>(sw: VectorSweep<X, Y>, start: real, now: real)
    requires FitsSsize(sw.npasses)
    requires |sw.vector| == 0 || sw.npasses <= 0
    ensures Next(Begin(sw, start), now).Exhausted?
    ensures Next(Begin(sw, start), now).sweep.result == Some(SweepResult([], []))
  {
    if !sw.roundtrip && sw.npasses > 0 {
      BuildSequenceCycles(sw);
      CycledLength(sw.vector, sw.npasses);
    }
  }

  /** The pending step is never cleared, so each call after the end of the
      iteration appends the last step to the result once more. */
  lemma NextAfterExhaustion<X, Y>(sw: VectorSweep<X, Y>, now: real)
    requires sw.cursor.Some? && sw.cursor.value.count >= |sw.cursor.value.values|
    requires sw.step.Some? && sw.result.Some?
    ensures var o := Next(sw, now);
      && o.Exhausted?
      && o.sweep.step == sw.step
      && o.sweep.result == Some(AddPair(sw.result.value, sw.step.value.x, sw.step.value.y))
      && Next(o.sweep, now).Exhausted?
      && |Next(o.sweep, now).sweep.result.value.x| == |sw.result.value.x| + 2
  {
  }

  /** A `for` loop stops at the end: writing more values than there are
      steps changes nothing. */
  lemma {:induction false} DriveStopsAtEnd<X, Y>(sw: VectorSweep<X, Y>, ys: seq<Option<Y>>, start: real, times: seq<real>)
    requires FitsSsize(sw.npasses)
    requires |ys| >= |BuildSequence(sw)| && |times| == |ys| + 1 && Len(sw) <= MaxSize
    ensures var n := |BuildSequence(sw)|;
      Drive(Begin(sw, start), ys, times)
      == Exhausted(Finished(sw, ys[..n], start, if n == 0 then start else times[n - 1]))
    decreases |ys|
  {
    var n := |BuildSequence(sw)|;
    if |ys| == n {
      DriveFromBegin(sw, ys, start, times);
      assert ys[..n] == ys;
    } else {
      var k := |ys| - 1;
      DriveStopsAtEnd(sw, ys[..k], start, times[..k + 1]);
      assert ys[..k][..n] == ys[..n];
      if n > 0 {
        assert times[..k + 1][n - 1] == times[n - 1];
      }
    }
  }
}

=== FILE: wrappers.dfy ===
/** The optional value used for Python's `None`, and a value-or-error result. */
module Wrappers {

  /** `None` stands for Python's `None`; `Some(v)` for a value that is present. */
  datatype Option<+T> = None | Some(value: T)

  /** A computation that either returns a value or raises an error. */
  datatype Result<+R, +E> = Success(value: R) | Failure(error: E)
}
